=== FILE: README.md ===
# QuranQuest Live quiz: a Dafny model of the session server and the client's answer bookkeeping

The system is a live multiple-choice quiz. Browsers join a shared session over a socket. The first participant gets an admin panel and starts the quiz. Questions come from a fixed bank of three. A correct answer earns a time-decayed number of points, and a leaderboard is broadcast after every answer.

This project models two pieces of it as pure functions over immutable datatypes:

- **The server session** (`server.js`). The state is `quizState`: the active flag, the current question, the question start time and the participant table. The five socket handlers are transitions: join, start, submit-answer, next-question and disconnect. Each takes the clock reading `now` as an argument. Each returns the next state and the messages it emits, as values. The model also covers the points formula and `getLeaderboard`. Handlers that would throw a `TypeError` return `Crashed`.
- **The client's answer bookkeeping** (`public/script.js`). The state is the 50-slot `userAnswers` array (`null`, an option index, or `-1` for time-up), the correct/incorrect counters and the remembered leaderboard. The model covers the write-once guards in `selectAnswer` and `handleTimeUp`, the accuracy figure, the rank-change badges, the two resets and the classification used by the results review.

Modules:

| file | module | what |
|---|---|---|
| optional.dfy | `Optional` | `Option` |
| bank.dfy | `Bank` | the three-question bank; lookup by id |
| scoring.dfy | `Scoring` | `max(10, 50 - floor(elapsed / 1000))` and its bounds |
| registry.dfy | `Registry` | `quizState.participants` as a map plus key insertion order |
| leaderboard.dfy | `Leaderboard` | stable sort by score descending, first ten |
| session.dfy | `Session` | `quizState`, the handlers and the session invariant |
| server.dfy | `Server` | event dispatch, runs of events, invariant preservation |
| client_board.dfy | `ClientBoard` | accuracy percentage, `findIndex`, rank-change badges |
| client.dfy | `Client` | answer slots, counters, resets, leaderboard update, review |

The model follows the code as written, including what it does not do:

- The points constants are 50, 10 and 1000 ms.
- Join has no name-uniqueness check and no phase guard.
- Start and next-question have no phase guard.
- Submit-answer has no duplicate-answer guard.
- Submit-answer grades against the question index the **client** sends, not against `currentQuestion`.
- There is no server-side timer, so nothing fences a second `next-question` for the same question (`Server.NextQuestionTwiceAdvancesTwice`).
- The leaderboard has no tie-break beyond score. `Array.prototype.sort` is stable and `Object.values` lists keys in insertion order, so equal scores stay in the order the sockets first joined. That is why `Registry.Table` keeps the key order next to the map. Assigning to an existing key keeps its place, as it does in JavaScript.

`server.js` and `public/script.js` disagree on payload shapes. For example, the server sends a bare question where the client destructures `{question, current, total}`, and it sends leaderboard rows without `correctAnswers`. Each side is modelled against its own code. The client handlers take the values they read from a payload as parameters.

The session invariant (`Session.Inv`) has four parts:
- the participant table is well formed;
- while the quiz is active, the current question exists and its start time is set;
- every score is at least 10 points per correct answer, and 0 when there is none;
- every recorded answer was graded against the bank question it names.

`Server.RunPreservesInv` proves the invariant holds in every state reached by any sequence of events that does not crash.

## Model

| member | source | states |
|---|---|---|
| Bank.BankWellFormed | server.js:26-48 | every bank question's correct index names one of its four options, ids are distinct, and the bank is non-empty |
| Scoring.WholeSeconds | server.js:93 | the result is the floor of elapsed/1000, as `1000*s <= elapsed < 1000*(s+1)`, also for negative elapsed time |
| Scoring.Points | server.js:93 | the result is the larger of 10 and 50 minus the whole seconds elapsed, so never below 10 |
| Scoring.Award | server.js:89-95 | a wrong answer adds 0; a correct one adds at least 10 and, when the clock did not go backwards, at most 50; the delta is positive exactly when the answer is correct |
| Scoring.PointsBounded | server.js:91-95 | for non-negative elapsed time a correct answer is worth between 10 and 50 points |
| Scoring.PointsMonotone | server.js:92-93 | answering later never earns more points |
| Scoring.FullBonusWithinFirstSecond | server.js:92-93 | the award is 50 or more exactly when the answer came within the first 1000 ms |
| Scoring.FloorReachedAfterFortySeconds | server.js:93 | the award is exactly 10 exactly when at least 40000 ms elapsed |
| Registry.Put | server.js:62-66 | assigning a socket's entry maps that id to the new record and leaves every other key and record unchanged; a new key is appended to the key order, an existing one keeps its place; the count `Registry.Count`, which is `Object.keys(participants).length` at server.js:69, 72 and 119, grows by one exactly for a new key |
| Registry.Remove | server.js:118 | deleting a socket's entry removes exactly that key, keeps every other record, keeps the table well formed, and the count drops by one exactly when the key was present; the key order loses that key at its position and is otherwise unchanged, and stays the same when the key was absent |
| Registry.WithoutAppend | server.js:118 | dropping a key from a concatenation drops it from each part, so the surviving keys keep their relative order |
| Registry.WithoutAt | server.js:118 | in a duplicate-free key order, dropping the key at position i closes the gap and leaves everything else where it was |
| Registry.Values | server.js:124 | `Object.values` lists one record per key, the i-th being the record of the i-th key in insertion order |
| Registry.ValueListed | server.js:124 | every record in the table appears in `Object.values`, so the sort sees every participant |
| Leaderboard.Insert | server.js:125 | one insertion step of the sort keeps the sequence ordered by score, highest first, and adds exactly the new participant |
| Leaderboard.Ranked | server.js:124-125 | the sort result is ordered by score, highest first; it is a permutation of its input; and each group of equal scores keeps its input order (a stable sort) |
| Leaderboard.InsertStable | server.js:125 | one insertion step places the new participant ahead of every participant with an equal score |
| Leaderboard.Top | server.js:126 | `slice(0, 10)` keeps the first min(10, n) rows of the ranking, still ordered, and a prefix of each score group |
| Leaderboard.Board | server.js:123-127 | `getLeaderboard` returns min(10, participant count) records, non-increasing by score, each a record of the table; equal scores appear in join order |
| Leaderboard.BoardIsTop | server.js:123-127 | a record that appears fewer times on the leaderboard than in the table (counting identical records of different sockets separately) means the board is full and that record scores no more than the tenth row |
| Session.InitialInv | server.js:50-55 | the state the server starts in (inactive, question 0, no start time, no participants) satisfies the session invariant |
| Session.Join | server.js:61-75 | join inserts or overwrites the sender's entry with the given name, score 0 and no answers, and leaves other entries and the phase fields unchanged; a new socket is appended to the key order and a returning one keeps its place; the broadcast count equals the number of keys; the admin panel goes to the sender exactly when there is one participant after the join, and nothing else is emitted: three messages then, two otherwise |
| Session.Start | server.js:77-82 | start sets the quiz active at question 0 with start time `now`, whatever the phase; participants are unchanged; the first question is broadcast |
| Session.Elapsed | server.js:92 | the time taken is `now` minus the start time, and `now` itself when the start time is `null`, which JavaScript subtracts as 0 |
| Session.Answered | server.js:89-101 | the sender's record gets one more answer with the named question's id, the option sent and whether it was correct; the score grows by the points for a correct answer and stays the same for a wrong one |
| Session.SubmitAnswer | server.js:84-104 | when inactive nothing changes and nothing is sent; otherwise an index outside the bank crashes, then an unknown sender crashes, and a bank index from a joined sender is always accepted; when accepted, only the sender's record changes, by exactly one answer and the award for it; the keys, their order and the phase are unchanged and one leaderboard broadcast goes out |
| Session.NextQuestion | server.js:106-115 | the current question goes up by one, whatever the phase; within the bank the start time becomes `now`, the active flag is kept and the new question is broadcast; past the end the quiz becomes inactive and the final leaderboard is broadcast; participants never change |
| Session.Disconnect | server.js:117-120 | disconnect removes exactly the sender's entry in any phase, leaves every other entry unchanged, keeps the remaining keys in their join order, and broadcasts the new count |
| Server.Handle | server.js:58-121 | a handler crashes exactly on submit-answer while active with an index outside the bank or an unknown sender; otherwise the table stays well formed |
| Server.Run | server.js:58-121 | feeding events one at a time in arrival order, and stopping at the first crash, keeps the participant table well formed |
| Server.AnsweredConsistent | server.js:89-101 | an accepted answer keeps the sender's score at least 10 per correct answer and keeps every recorded answer correctly graded |
| Server.JoinPreservesInv | server.js:61-75 | join preserves the session invariant |
| Server.StartPreservesInv | server.js:77-82 | start preserves the session invariant: active implies question 0 exists and the start time is set |
| Server.SubmitPreservesInv | server.js:84-104 | an accepted submit-answer preserves the session invariant |
| Server.NextPreservesInv | server.js:106-115 | next-question preserves the session invariant: active still implies the current question exists and the start time is set |
| Server.DisconnectPreservesInv | server.js:117-120 | disconnect preserves the session invariant |
| Server.HandlePreservesInv | server.js:58-121 | every event handled without a crash preserves the session invariant |
| Server.RunPreservesInv | server.js:58-121 | every state reached by a crash-free sequence of events satisfies the session invariant |
| Server.SubmitNeverLowersScores | server.js:91-95 | after an accepted answer every participant is still present with a score no lower than before |
| Server.NextQuestionTwiceAdvancesTwice | server.js:106-115 | two next-question requests advance the current question by two: nothing fences a duplicate request |
| Server.QuickCorrectAnswerEarnsFullBonus | server.js:89-94 | a correct answer from a joined socket within the first 1000 ms of the question is accepted and adds exactly 50 points |
| ClientBoard.Accuracy | public/script.js:197-198 | the accuracy is 0 when nothing was counted; otherwise it is 100·correct/total rounded to the nearest integer, halves up |
| ClientBoard.AccuracyBounded | public/script.js:197-198 | with non-negative counters the accuracy lies in [0, 100] |
| ClientBoard.AccuracyExtremes | public/script.js:197-198 | with no wrong answers the accuracy is 100; with no right answers it is 0 |
| ClientBoard.AccuracyAboveHundred | public/script.js:197-198 | the accuracy exceeds 100 exactly when the wrong-answer count is negative by at least 1/200 of the total |
| ClientBoard.FindIndex | public/script.js:215 | `findIndex` returns -1 exactly when no row has the name; otherwise it returns the index of the first row with it |
| ClientBoard.RankBadge | public/script.js:215-223 | there is no badge exactly when the name was absent from the previous board or first appeared there at the same index; `Up(n)` means it first appeared n places lower, `Down(n)` n places higher |
| Client.FreshSlots | public/script.js:26 | a fresh answer array has 50 slots, all `null` |
| Client.InitialTally | public/script.js:20-29 | the globals at page load (no user, no snapshot so not active, no remembered board, 50 empty slots, zero counters) satisfy the tally, so a client that joins a running quiz starts consistent |
| Client.JoinQuiz | public/script.js:53-72 | a name shorter than two characters is refused with nothing sent and nothing changed; otherwise the name becomes the current user, it is sent to the server, and nothing else changes |
| Client.JoinedUserTakesOwnCounts | public/script.js:236-242 | after joining under a name, a leaderboard update listing that name takes the correct count from the first row with it, and the counters sum to the current question number |
| Client.SelectAnswer | public/script.js:89-141 | while inactive, or when the current slot is taken or outside the array, nothing changes and nothing is sent; otherwise the slot gets the chosen option and exactly one counter goes up: correct when the choice equals the stored question's correct index, else incorrect; the answer and a next-question request are sent; a missing stored question throws after the slot is written, with counters unchanged |
| Client.HandleTimeUp | public/script.js:167-190 | an open current slot becomes -1 and the wrong-answer count goes up by one; otherwise the state is unchanged; the handler throws, sending nothing, exactly when the slot was open and the stored question's correct index names no option button; otherwise a next-question request is sent; the user, the active flag, the stored questions and the remembered board never change |
| Client.SelectWritesOnce | public/script.js:99-106 | answering never changes a filled slot or any slot other than the current one |
| Client.TimeUpWritesOnce | public/script.js:173-176 | timing out never changes a filled slot or any slot other than the current one |
| Client.SelectKeepsTally | public/script.js:105-125 | a completed answer keeps both counters non-negative and their sum equal to the number of filled slots |
| Client.SelectFaultBreaksTally | public/script.js:105-125 | an answer that throws leaves exactly one filled slot that neither counter includes |
| Client.TimeUpKeepsTally | public/script.js:174-177 | timing out keeps both counters non-negative and their sum equal to the number of filled slots |
| Client.DisplayQuestion | public/script.js:248-260 | showing question number `current` makes `current - 1` the current index and stores its correct option there; no other question index is added, other stored questions, slots, counters, the user, the active flag and the remembered board are unchanged |
| Client.QuizStarted | public/script.js:390-403 | quiz-started resets all 50 slots to `null` and both counters to 0, clears the remembered leaderboard and shows the first question, storing its correct option at index `current - 1` on top of the questions stored before; the tally holds afterwards |
| Client.LobbyJoinerCannotAnswer | public/script.js:89-97 | a client whose snapshot says inactive still says so after quiz-started, so every answer it picks is ignored |
| Client.QuizStartedActive | public/script.js:390-403 | the corrected quiz-started does the same reset and shows the first question, and also marks the quiz active |
| Client.StartedClientCanAnswer | public/script.js:89-141 | after the corrected quiz-started, an answer to a first question within the 50 slots is written, counted once and sent |
| Client.ReturnToLobby | public/script.js:326-346 | return-to-lobby does the same reset, clears the user and the stored questions, and sets the current question to 0; the server snapshot's active flag is kept |
| Client.ReceiveQuizState | public/script.js:377-380 | a quiz-state snapshot replaces only the client's view of whether the quiz is active |
| Client.OwnRow | public/script.js:236 | the user's row is the first row with the user's name, or -1 when there is no user or no such row |
| Client.UpdateLeaderboard | public/script.js:203-245 | one badge per row, computed against the previous board; the new board is remembered; slots and the current index are unchanged; when the user is listed the correct count is taken from the row and the two counters sum to the current index plus one; otherwise the counters are unchanged; the user, the active flag and the stored questions never change |
| Client.OverCountedRowOverstatesAccuracy | public/script.js:236-243 | when the user is listed, the derived wrong count is negative exactly when the row's correct count exceeds the question number, and the accuracy passes 100 exactly when that excess is at least 1/200 of the question number |
| Client.UpdatedAccuracyBounded | public/script.js:240-243 | after an update that lists the user with a correct count between 0 and the current index plus one, the accuracy is a percentage |
| Client.ReviewAt | public/script.js:299-301 | a review line says "Not answered" exactly when the slot is `null` or -1; past the 50 slots it shows `undefined`; an answered slot shows the option that was chosen; it is correct exactly when the slot equals the question's correct answer |
| Client.Review | public/script.js:295-301 | the review has one line per question result, each classified as above |
| Client.CorrectLineShowsChoice | public/script.js:299-301 | a line marked correct shows the chosen option, unless the correct answer is -1 |

## Findings

| source | as written | input that shows it | evidently intended | confidence | as-written member | corrected member |
|---|---|---|---|---|---|---|
| public/script.js:377-403 | `selectAnswer` accepts answers only when the last `quiz-state` snapshot says active; the server sends that snapshot only on join (server.js:68), and `quiz-started` does not update it | a client joins in the lobby (snapshot inactive), then quiz-started arrives; any option it picks hits the early return | quiz-started marks the client's view of the quiz active | medium, not executed | Client.LobbyJoinerCannotAnswer | Client.QuizStartedActive, with Client.StartedClientCanAnswer |

The rest of the model keeps `Client.QuizStarted` as written.

## Left out

- Express setup, static serving, the `/` route and `server.listen` (server.js:1-23, 129-132): process bootstrap and I/O.
- The Socket.io transport. Emissions are returned as `Session.Emission` and `Client.Request` values, and nothing delivers them. Connection-status logging is not modelled.
- `Date.now()`: handlers take `now` as an integer number of milliseconds.
- Timers. The client's `startTimer` countdown and the 2000 ms and 1500 ms `setTimeout` auto-advances are not modelled. Time-up is an explicit `Client.HandleTimeUp` call. The delayed `next-question` is returned at once as a `NextQuestionReq`.
- DOM work, CSS classes, `alert`/`confirm`, `navigator.share`/clipboard (`shareResults`) and console styling.
- Client.JoinQuiz: takes the already trimmed name. `String.prototype.trim` is not modelled, and the length is counted in characters rather than UTF-16 code units, so a one-character name outside the Basic Multilingual Plane is refused here but accepted by the browser. Disabling the join button is DOM work.
- `startQuiz` on the client. It reads the participant count from the last snapshot and asks `confirm`, a user dialog, before emitting `start-quiz`. The client state does not keep the snapshot's participants.
- ClientBoard.Accuracy: computes `Math.round` exactly over the integers. Floating-point error in `correct / total * 100` near a half is not modelled.
- The per-row accuracy in the final leaderboard (public/script.js:280) divides by `totalQuestions`, a payload value. It is floating point and not modelled.
- Question prompts and option strings. A question is its id, option count, correct index and time limit. The review shows the chosen option index rather than its text.
- JavaScript's dynamic typing. `questionIndex` and `answerIndex` are integers. A payload that is `null`, a string or fractional is not modelled, and neither is a username that is not a string.
- What happens to the process after a `TypeError` in a handler (a restart with a fresh state) is not modelled. `Server.Run` stops at the first crash.
- Client.SelectAnswer: takes `answerIndex` in 0..3, the only values the four option buttons pass.
- The early return in `displayQuestion` on a missing payload (public/script.js:249) is not modelled. `Client.DisplayQuestion` and `Client.QuizStarted` always receive a question.
- Integer-like socket ids, which `Object.values` would list before all others, are not modelled. Socket ids are random strings, so `Registry.Table` uses plain insertion order.
- Scores are unbounded integers. JavaScript numbers lose precision only beyond 2^53, which no score reaches.

=== FILE: bank.dfy ===
/** The server's constant question bank. Prompt and option strings are not
    modelled: a question is its id, how many options it offers, the index of
    the correct option and its time limit in seconds. */
module Bank {
  import opened Optional

  datatype Question = Question(id: int, optionCount: nat, correct: int, timeLimit: nat)

  const Questions: seq<Question> := [
    Question(1, 4, 0, 20),
    Question(2, 4, 0, 20),
    Question(3, 4, 1, 20)
  ]

  /** `questions[i]` is defined exactly for these indices; anything else reads `undefined`. */
  predicate ValidIndex(i: int) {
    0 <= i < |Questions|
  }

  /** Every question's correct index names one of its options, and ids are distinct. */
  predicate WellFormed(qs: seq<Question>) {
    && (forall i :: 0 <= i < |qs| ==> 0 <= qs[i].correct < qs[i].optionCount)
    && (forall i, j :: 0 <= i < j < |qs| ==> qs[i].id != qs[j].id)
  }

  /** The first question of `qs` carrying `id`, if any. */
  function FindById(qs: seq<Question>, id: int): (r: Option<Question>)
    ensures r.None? <==> forall i :: 0 <= i < |qs| ==> qs[i].id != id
    ensures r.Some? ==> r.value in qs && r.value.id == id
  {
    if |qs| == 0 then None
    else if qs[0].id == id then Some(qs[0])
    else FindById(qs[1..], id)
  }

  /** Looking a bank question up by its own id finds that very question. */
  lemma {:induction false} FindByIdOfMember(qs: seq<Question>, i: int)
    requires WellFormed(qs)
    requires 0 <= i < |qs|
    ensures FindById(qs, qs[i].id) == Some(qs[i])
  {
    if i > 0 {
      assert qs[0].id != qs[i].id;
      assert WellFormed(qs[1..]) by {
        forall a, b | 0 <= a < b < |qs[1..]|
          ensures qs[1..][a].id != qs[1..][b].id
        {
          assert qs[1..][a] == qs[a + 1] && qs[1..][b] == qs[b + 1];
        }
      }
      FindByIdOfMember(qs[1..], i - 1);
      assert qs[1..][i - 1] == qs[i];
    }
  }

  /** The bank satisfies its own data invariant. */
  lemma BankWellFormed()
    ensures WellFormed(Questions)
    ensures |Questions| > 0
  {
  }
}

=== FILE: client.dfy ===
/** The browser client's per-question answer bookkeeping, with the DOM,
    timers and sockets stripped away: a fixed row of answer slots, the two
    counters, and the handlers that write or reset them. Each handler is a
    pure function of the client's state; what it would send to the server is
    returned as a list of requests. */
module Client {
  import opened Optional
  import opened ClientBoard

  /** `new Array(50).fill(null)` */
  const SlotCount: nat := 50
  /** The four option buttons. */
  const OptionCount: nat := 4
  /** The slot value `handleTimeUp` writes when no option was chosen. */
  const TimeUpMark: int := -1

  /** An answer slot: still `null`, or the option index written into it. */
  datatype Slot = Null | Choice(index: int)

  /** The client's globals. `quizActive` is `quizState?.isActive`, taken
      from the last `quiz-state` snapshot; `questions` maps each displayed
      question index to the index of its correct option. */
  datatype ClientState = ClientState(
    currentUser: Option<string>,
    quizActive: bool,
    currentQuestionIndex: int,
    questions: map<int, int>,
    userAnswers: seq<Slot>,
    correctCount: int,
    incorrectCount: int,
    lastLeaderboard: seq<BoardEntry>)

  /** Messages the client sends to the server. */
  datatype Request =
    | JoinQuizReq(username: string)
    | SubmitAnswerReq(questionIndex: int, answerIndex: int)
    | NextQuestionReq

  /** A handler's result: it ran to the end, or it threw part-way, leaving
      whatever it had already written. */
  datatype Reaction = Done(state: ClientState, sent: seq<Request>) | Faulted(state: ClientState)

  function FreshSlots(): (slots: seq<Slot>)
    ensures |slots| == SlotCount
    ensures forall i :: 0 <= i < |slots| ==> slots[i] == Null
  {
    seq(SlotCount, _ => Null)
  }

  /** The globals as the page loads them: no user, no snapshot (so not
      active), question 0, nothing stored, fresh slots, zero counters. */
  const Initial: ClientState := ClientState(None, false, 0, map[], FreshSlots(), 0, 0, [])

  /** How many slots hold something. */
  function Filled(slots: seq<Slot>): (n: nat)
    ensures n <= |slots|
  {
    if |slots| == 0 then 0
    else (if slots[0] != Null then 1 else 0) + Filled(slots[1..])
  }

  lemma {:induction false} FilledFresh(slots: seq<Slot>)
    requires forall i :: 0 <= i < |slots| ==> slots[i] == Null
    ensures Filled(slots) == 0
  {
    if |slots| > 0 {
      FilledFresh(slots[1..]);
    }
  }

  /** Filling one empty slot fills exactly one more. */
  lemma {:induction false} FilledWrite(slots: seq<Slot>, i: int, v: Slot)
    requires 0 <= i < |slots| && slots[i] == Null && v != Null
    ensures Filled(slots[i := v]) == Filled(slots) + 1
  {
    if i == 0 {
      assert slots[i := v][1..] == slots[1..];
    } else {
      assert slots[i := v][1..] == slots[1..][i - 1 := v];
      FilledWrite(slots[1..], i - 1, v);
    }
  }

  /** The counters account for exactly the filled slots. This holds from
      page load and every reset through any number of answers and time-ups;
      a leaderboard update overwrites the counters from the server's figures
      and can break it. */
  predicate Tally(c: ClientState) {
    && |c.userAnswers| == SlotCount
    && c.correctCount >= 0 && c.incorrectCount >= 0
    && c.correctCount + c.incorrectCount == Filled(c.userAnswers)
  }

  /** A client that joins a running quiz never sees a reset, so its tally
      starts from the page-load globals. */
  lemma InitialTally()
    ensures Tally(Initial) && Filled(Initial.userAnswers) == 0
    ensures Initial.currentUser.None? && !Initial.quizActive && Initial.lastLeaderboard == []
  {
    FilledFresh(FreshSlots());
  }

  /** The slot the current question writes to is still open. In JavaScript
      an index outside the array reads `undefined`, which is not `null`. */
  predicate OpenSlot(c: ClientState) {
    0 <= c.currentQuestionIndex < |c.userAnswers| && c.userAnswers[c.currentQuestionIndex] == Null
  }

  /** The stored current question's correct index names no option button,
      so highlighting that button throws. */
  predicate DanglingCorrect(c: ClientState) {
    c.currentQuestionIndex in c.questions && !(0 <= c.questions[c.currentQuestionIndex] < OptionCount)
  }

  /** `joinQuiz()` with the trimmed text of the name box: a name shorter
      than two characters is refused; otherwise it becomes the current user
      and is sent to the server. */
  function JoinQuiz(c: ClientState, username: string): (r: Reaction)
    ensures r.Done?
    ensures r.state == c.(currentUser := r.state.currentUser)
    ensures |username| < 2 ==> r.state == c && r.sent == []
    ensures |username| >= 2 ==> r.state.currentUser == Some(username) && r.sent == [JoinQuizReq(username)]
  {
    if |username| < 2 then Done(c, [])
    else Done(c.(currentUser := Some(username)), [JoinQuizReq(username)])
  }

  /** `selectAnswer(answerIndex)`, called by one of the option buttons.
      Ignored while the quiz is not active or the slot is taken; otherwise
      writes the slot, counts the answer right or wrong against the stored
      question, asks the server to record it and to move on. Reading the
      stored question throws when it is missing or its correct index names
      no button, after the slot has been written. */
  function SelectAnswer(c: ClientState, answerIndex: int): (r: Reaction)
    requires 0 <= answerIndex < OptionCount
    ensures !c.quizActive || !OpenSlot(c) ==> r == Done(c, [])
    ensures c.quizActive && OpenSlot(c) ==>
      var cqi := c.currentQuestionIndex;
      && r.state.userAnswers == c.userAnswers[cqi := Choice(answerIndex)]
      && r.state.correctCount + r.state.incorrectCount >= c.correctCount + c.incorrectCount
      && (r.Faulted? <==> cqi !in c.questions || DanglingCorrect(c))
      && (r.Done? ==>
        && r.sent == [SubmitAnswerReq(cqi, answerIndex), NextQuestionReq]
        && (answerIndex == c.questions[cqi] ==>
              r.state.correctCount == c.correctCount + 1 && r.state.incorrectCount == c.incorrectCount)
        && (answerIndex != c.questions[cqi] ==>
              r.state.incorrectCount == c.incorrectCount + 1 && r.state.correctCount == c.correctCount))
      && (r.Faulted? ==>
        r.state.correctCount == c.correctCount && r.state.incorrectCount == c.incorrectCount)
    ensures r.state.currentQuestionIndex == c.currentQuestionIndex
    ensures r.state.questions == c.questions && r.state.quizActive == c.quizActive
    ensures r.state.lastLeaderboard == c.lastLeaderboard && r.state.currentUser == c.currentUser
  {
    if !c.quizActive || !OpenSlot(c) then Done(c, [])
    else
      var cqi := c.currentQuestionIndex;
      var written := c.(userAnswers := c.userAnswers[cqi := Choice(answerIndex)]);
      if cqi !in c.questions || DanglingCorrect(c) then Faulted(written)
      else if answerIndex == c.questions[cqi] then
        Done(written.(correctCount := c.correctCount + 1), [SubmitAnswerReq(cqi, answerIndex), NextQuestionReq])
      else
        Done(written.(incorrectCount := c.incorrectCount + 1), [SubmitAnswerReq(cqi, answerIndex), NextQuestionReq])
  }

  /** `handleTimeUp()`: an open slot becomes "no answer" and counts as
      wrong; a taken one is left alone. Then the client asks the server to
      move on, unless highlighting the stored question's correct option
      threw first. A missing stored question is skipped, not read. */
  function HandleTimeUp(c: ClientState): (r: Reaction)
    ensures r.Faulted? <==> OpenSlot(c) && DanglingCorrect(c)
    ensures r.Done? ==> r.sent == [NextQuestionReq]
    ensures OpenSlot(c) ==>
      && r.state.userAnswers == c.userAnswers[c.currentQuestionIndex := Choice(TimeUpMark)]
      && r.state.incorrectCount == c.incorrectCount + 1
    ensures !OpenSlot(c) ==> r.state == c
    ensures r.state == c.(userAnswers := r.state.userAnswers, incorrectCount := r.state.incorrectCount)
    ensures r.state.correctCount == c.correctCount
    ensures r.state.currentQuestionIndex == c.currentQuestionIndex && r.state.questions == c.questions
  {
    if OpenSlot(c) then
      var marked := c.(userAnswers := c.userAnswers[c.currentQuestionIndex := Choice(TimeUpMark)],
                       incorrectCount := c.incorrectCount + 1);
      if DanglingCorrect(c) then Faulted(marked) else Done(marked, [NextQuestionReq])
    else Done(c, [NextQuestionReq])
  }

  /** Slots are write-once: answering never changes a slot that holds
      something, nor any slot but the current one. */
  lemma SelectWritesOnce(c: ClientState, answerIndex: int)
    requires 0 <= answerIndex < OptionCount
    ensures var after := SelectAnswer(c, answerIndex).state.userAnswers;
      && |after| == |c.userAnswers|
      && forall i :: 0 <= i < |after| && (c.userAnswers[i] != Null || i != c.currentQuestionIndex) ==>
           after[i] == c.userAnswers[i]
  {
  }

  /** Timing out never changes a slot that holds something, nor any slot
      but the current one. */
  lemma TimeUpWritesOnce(c: ClientState)
    ensures var after := HandleTimeUp(c).state.userAnswers;
      && |after| == |c.userAnswers|
      && forall i :: 0 <= i < |after| && (c.userAnswers[i] != Null || i != c.currentQuestionIndex) ==>
           after[i] == c.userAnswers[i]
  {
  }

  /** A completed answer keeps the counters in step with the slots. */
  lemma SelectKeepsTally(c: ClientState, answerIndex: int)
    requires Tally(c)
    requires 0 <= answerIndex < OptionCount
    requires SelectAnswer(c, answerIndex).Done?
    ensures Tally(SelectAnswer(c, answerIndex).state)
  {
    if c.quizActive && OpenSlot(c) {
      FilledWrite(c.userAnswers, c.currentQuestionIndex, Choice(answerIndex));
    }
  }

  /** A handler that throws mid-way leaves a filled slot nobody counted. */
  lemma SelectFaultBreaksTally(c: ClientState, answerIndex: int)
    requires Tally(c)
    requires 0 <= answerIndex < OptionCount
    requires SelectAnswer(c, answerIndex).Faulted?
    ensures var after := SelectAnswer(c, answerIndex).state;
      after.correctCount + after.incorrectCount + 1 == Filled(after.userAnswers)
  {
    FilledWrite(c.userAnswers, c.currentQuestionIndex, Choice(answerIndex));
  }

  lemma TimeUpKeepsTally(c: ClientState)
    requires Tally(c)
    ensures Tally(HandleTimeUp(c).state)
  {
    if OpenSlot(c) {
      FilledWrite(c.userAnswers, c.currentQuestionIndex, Choice(TimeUpMark));
    }
  }

  /** `displayQuestion`: the question numbered `current` (1-based) becomes
      the current one and is stored with its correct option. */
  function DisplayQuestion(c: ClientState, current: int, correct: int): (r: ClientState)
    ensures r.currentQuestionIndex + 1 == current
    ensures r.currentQuestionIndex in r.questions && r.questions[r.currentQuestionIndex] == correct
    ensures forall i :: i != current - 1 && i in c.questions ==> i in r.questions && r.questions[i] == c.questions[i]
    ensures r.questions.Keys == c.questions.Keys + {current - 1}
    ensures r.userAnswers == c.userAnswers
    ensures r.correctCount == c.correctCount && r.incorrectCount == c.incorrectCount
    ensures r == c.(currentQuestionIndex := r.currentQuestionIndex, questions := r.questions)
  {
    c.(currentQuestionIndex := current - 1, questions := c.questions[current - 1 := correct])
  }

  /** `quiz-started`: all fifty slots back to `null`, both counters and the
      remembered leaderboard cleared, then the first question is shown. */
  function QuizStarted(c: ClientState, current: int, correct: int): (r: ClientState)
    ensures Tally(r) && Filled(r.userAnswers) == 0
    ensures forall i :: 0 <= i < |r.userAnswers| ==> r.userAnswers[i] == Null
    ensures r.correctCount == 0 && r.incorrectCount == 0
    ensures r.lastLeaderboard == []
    ensures r.currentQuestionIndex + 1 == current
    ensures r.questions == c.questions[current - 1 := correct]
    ensures r.currentUser == c.currentUser && r.quizActive == c.quizActive
  {
    FilledFresh(FreshSlots());
    var reset := c.(userAnswers := FreshSlots(), correctCount := 0, incorrectCount := 0, lastLeaderboard := []);
    DisplayQuestion(reset, current, correct)
  }

  /** A client that joined while the server was in the lobby holds the
      snapshot `isActive == false`, and `quiz-started` does not change it,
      so every answer it picks is turned away. */
  lemma LobbyJoinerCannotAnswer(c: ClientState, current: int, correct: int, answerIndex: int)
    requires !c.quizActive
    requires 0 <= answerIndex < OptionCount
    ensures var started := QuizStarted(c, current, correct);
      SelectAnswer(started, answerIndex) == Done(started, [])
  {
  }

  /** `quiz-started` as evidently intended: the reset and first question
      of `QuizStarted`, and the client's view of the quiz becomes active. */
  function QuizStartedActive(c: ClientState, current: int, correct: int): (r: ClientState)
    ensures r.quizActive
    ensures Tally(r) && Filled(r.userAnswers) == 0
    ensures r.correctCount == 0 && r.incorrectCount == 0 && r.lastLeaderboard == []
    ensures r.currentQuestionIndex + 1 == current
    ensures r.currentQuestionIndex in r.questions && r.questions[r.currentQuestionIndex] == correct
    ensures r.currentUser == c.currentUser
  {
    QuizStarted(c, current, correct).(quizActive := true)
  }

  /** With the corrected handler, the first question within the fifty slots
      can be answered: the slot is written, the answer is counted and sent. */
  lemma StartedClientCanAnswer(c: ClientState, current: int, correct: int, answerIndex: int)
    requires 1 <= current <= SlotCount
    requires 0 <= correct < OptionCount
    requires 0 <= answerIndex < OptionCount
    ensures var started := QuizStartedActive(c, current, correct);
      var r := SelectAnswer(started, answerIndex);
      && r.Done?
      && r.state.userAnswers[current - 1] == Choice(answerIndex)
      && r.state.correctCount + r.state.incorrectCount == 1
      && r.sent == [SubmitAnswerReq(current - 1, answerIndex), NextQuestionReq]
  {
    var started := QuizStartedActive(c, current, correct);
    assert started.userAnswers == FreshSlots();
  }

  /** `returnToLobby`: as after `quiz-started`, and also no user, question 0
      and no stored questions. The last `quiz-state` snapshot is kept. */
  function ReturnToLobby(c: ClientState): (r: ClientState)
    ensures Tally(r) && Filled(r.userAnswers) == 0
    ensures forall i :: 0 <= i < |r.userAnswers| ==> r.userAnswers[i] == Null
    ensures r.correctCount == 0 && r.incorrectCount == 0
    ensures r.currentUser.None? && r.currentQuestionIndex == 0 && r.questions == map[]
    ensures r.lastLeaderboard == []
    ensures r.quizActive == c.quizActive
  {
    FilledFresh(FreshSlots());
    ClientState(None, c.quizActive, 0, map[], FreshSlots(), 0, 0, [])
  }

  /** `quiz-state`: the snapshot the server sends on join. */
  function ReceiveQuizState(c: ClientState, isActive: bool): (r: ClientState)
    ensures r.quizActive == isActive
    ensures r == c.(quizActive := r.quizActive)
  {
    c.(quizActive := isActive)
  }

  /** The leaderboard as drawn, one badge per row, and the state after. */
  datatype BoardView = BoardView(state: ClientState, badges: seq<Badge>)

  /** The row of `board` the current user is shown as: `find` by username. */
  function OwnRow(board: seq<BoardEntry>, user: Option<string>): (r: int)
    ensures r == -1 || (user.Some? && FirstAt(board, user.value, r))
    ensures r == -1 <==> user.None? || forall j :: 0 <= j < |board| ==> board[j].username != user.value
  {
    if user.None? then -1 else FindIndex(board, user.value)
  }

  /** `updateLeaderboard(data)`: badges each row against the previous board,
      remembers the new one, and, when the user is listed, takes the
      correct count from the server and derives the wrong count from the
      question number. */
  function UpdateLeaderboard(c: ClientState, data: seq<BoardEntry>): (r: BoardView)
    ensures |r.badges| == |data|
    ensures forall i :: 0 <= i < |data| ==> r.badges[i] == RankBadge(c.lastLeaderboard, data[i].username, i)
    ensures r.state.lastLeaderboard == data
    ensures r.state == c.(lastLeaderboard := data, correctCount := r.state.correctCount,
                          incorrectCount := r.state.incorrectCount)
    ensures r.state.userAnswers == c.userAnswers && r.state.currentQuestionIndex == c.currentQuestionIndex
    ensures OwnRow(data, c.currentUser) != -1 ==>
      && r.state.correctCount == data[OwnRow(data, c.currentUser)].correctAnswers
      && r.state.correctCount + r.state.incorrectCount == c.currentQuestionIndex + 1
    ensures OwnRow(data, c.currentUser) == -1 ==>
      r.state.correctCount == c.correctCount && r.state.incorrectCount == c.incorrectCount
  {
    var badges := seq(|data|, i requires 0 <= i < |data| => RankBadge(c.lastLeaderboard, data[i].username, i));
    var remembered := c.(lastLeaderboard := data);
    var own := OwnRow(data, c.currentUser);
    if own == -1 then BoardView(remembered, badges)
    else
      var correct := data[own].correctAnswers;
      BoardView(remembered.(correctCount := correct,
                            incorrectCount := (c.currentQuestionIndex + 1) - correct), badges)
  }

  /** Once joined under `name`, a leaderboard update that lists the name
      takes the counters from the first row with it. */
  lemma JoinedUserTakesOwnCounts(c: ClientState, name: string, data: seq<BoardEntry>, i: int)
    requires |name| >= 2
    requires 0 <= i < |data| && data[i].username == name
    ensures var joined := JoinQuiz(c, name).state;
      var s := UpdateLeaderboard(joined, data).state;
      && OwnRow(data, joined.currentUser) == FindIndex(data, name) <= i
      && s.correctCount == data[FindIndex(data, name)].correctAnswers
      && s.correctCount + s.incorrectCount == c.currentQuestionIndex + 1
  {
  }

  /** A row whose correct count is ahead of the question number makes the
      derived wrong count negative, and the accuracy can then pass 100. */
  lemma OverCountedRowOverstatesAccuracy(c: ClientState, data: seq<BoardEntry>)
    ensures var own := OwnRow(data, c.currentUser);
      var s := UpdateLeaderboard(c, data).state;
      own != -1 && c.currentQuestionIndex >= 0 ==>
        && (s.incorrectCount < 0 <==> data[own].correctAnswers > c.currentQuestionIndex + 1)
        && (Accuracy(s.correctCount, s.incorrectCount) > 100 <==>
              200 * (data[own].correctAnswers - (c.currentQuestionIndex + 1)) >= c.currentQuestionIndex + 1)
  {
    var own := OwnRow(data, c.currentUser);
    var s := UpdateLeaderboard(c, data).state;
    if own != -1 && c.currentQuestionIndex >= 0 {
      AccuracyAboveHundred(s.correctCount, s.incorrectCount);
    }
  }

  /** After a leaderboard update that lists the user with a plausible
      correct count, the accuracy shown is a percentage again. */
  lemma UpdatedAccuracyBounded(c: ClientState, data: seq<BoardEntry>)
    requires OwnRow(data, c.currentUser) != -1
    requires 0 <= data[OwnRow(data, c.currentUser)].correctAnswers <= c.currentQuestionIndex + 1
    ensures var s := UpdateLeaderboard(c, data).state;
      0 <= Accuracy(s.correctCount, s.incorrectCount) <= 100
  {
    var s := UpdateLeaderboard(c, data).state;
    AccuracyBounded(s.correctCount, s.incorrectCount);
  }

  /** What the results review shows as "Your answer". */
  datatype AnswerText = NotAnswered | OptionText(choice: int) | UndefinedText

  datatype ReviewLine = ReviewLine(shown: AnswerText, isCorrect: bool)

  /** One line of `showFinalResults`' review for question `i`, whose correct
      option is `correctAnswer`. Past the end of the slots JavaScript reads
      `undefined`, which is neither `null` nor -1 and matches nothing. */
  function ReviewAt(slots: seq<Slot>, i: nat, correctAnswer: int): (line: ReviewLine)
    ensures line.shown == NotAnswered <==> i < |slots| && (slots[i] == Null || slots[i] == Choice(TimeUpMark))
    ensures line.shown == UndefinedText <==> i >= |slots|
    ensures line.isCorrect <==> i < |slots| && slots[i] == Choice(correctAnswer)
    ensures i < |slots| && slots[i].Choice? && slots[i].index != TimeUpMark ==>
      line.shown == OptionText(slots[i].index)
  {
    if i >= |slots| then ReviewLine(UndefinedText, false)
    else match slots[i]
      case Null => ReviewLine(NotAnswered, false)
      case Choice(k) =>
        ReviewLine(if k == TimeUpMark then NotAnswered else OptionText(k), k == correctAnswer)
  }

  /** The review, one line per question result the server sent. */
  function Review(slots: seq<Slot>, correctAnswers: seq<int>): (lines: seq<ReviewLine>)
    ensures |lines| == |correctAnswers|
    ensures forall i :: 0 <= i < |lines| ==> lines[i] == ReviewAt(slots, i, correctAnswers[i])
  {
    seq(|correctAnswers|, i requires 0 <= i < |correctAnswers| => ReviewAt(slots, i, correctAnswers[i]))
  }

  /** A line marked correct shows the option that was chosen, unless the
      correct answer itself is the time-up mark. */
  lemma CorrectLineShowsChoice(slots: seq<Slot>, i: nat, correctAnswer: int)
    requires correctAnswer != TimeUpMark
    requires ReviewAt(slots, i, correctAnswer).isCorrect
    ensures ReviewAt(slots, i, correctAnswer).shown == OptionText(correctAnswer)
  {
  }
}

=== FILE: client_board.dfy ===
/** The browser client's arithmetic over what the server sends it: the
    accuracy percentage and the rank-change badges of the live leaderboard. */
module ClientBoard {

  /** One leaderboard row as the client reads it. */
  datatype BoardEntry = BoardEntry(username: string, score: int, correctAnswers: int)

  /** The badge shown next to a row: how many places it rose or fell since
      the previous leaderboard. */
  datatype Badge = NoBadge | Up(places: nat) | Down(places: nat)

  /** `Math.round(correct / total * 100)` when anything was counted, 0 otherwise;
      computed exactly over the integers. */
  function Accuracy(correct: int, incorrect: int): (pct: int)
    ensures correct + incorrect <= 0 ==> pct == 0
    ensures correct + incorrect > 0 ==>
      var total := correct + incorrect;
      2 * total * pct <= 200 * correct + total < 2 * total * (pct + 1)
  {
    var total := correct + incorrect;
    if total > 0 then (200 * correct + total) / (2 * total) else 0
  }

  lemma MulMono(a: int, x: int, y: int)
    requires a >= 0
    ensures x <= y ==> a * x <= a * y
  {
    assert a * y - a * x == a * (y - x);
  }

  /** With non-negative counters the percentage is a percentage. */
  lemma AccuracyBounded(correct: int, incorrect: int)
    requires correct >= 0 && incorrect >= 0
    ensures 0 <= Accuracy(correct, incorrect) <= 100
  {
    var total := correct + incorrect;
    if total > 0 {
      var pct := Accuracy(correct, incorrect);
      var twice := 2 * total;
      assert twice * pct <= 200 * correct + total < twice * (pct + 1);
      MulMono(twice, pct + 1, 0);
      MulMono(twice, 101, pct);
    }
  }

  /** No wrong answers means 100%, no right ones means 0%. */
  lemma AccuracyExtremes(correct: int, incorrect: int)
    requires correct >= 0 && incorrect >= 0 && correct + incorrect > 0
    ensures incorrect == 0 ==> Accuracy(correct, incorrect) == 100
    ensures correct == 0 ==> Accuracy(correct, incorrect) == 0
  {
    var total := correct + incorrect;
    var pct := Accuracy(correct, incorrect);
    var twice := 2 * total;
    assert twice * pct <= 200 * correct + total < twice * (pct + 1);
    AccuracyBounded(correct, incorrect);
    MulMono(twice, pct + 1, 100);
    MulMono(twice, 1, pct);
  }

  /** The figure passes 100% exactly when the wrong-answer count is negative
      by at least a two-hundredth of the total, which only a leaderboard
      update can make it. */
  lemma AccuracyAboveHundred(correct: int, incorrect: int)
    requires correct + incorrect > 0
    ensures Accuracy(correct, incorrect) > 100 <==> 200 * -incorrect >= correct + incorrect
  {
    var total := correct + incorrect;
    var pct := Accuracy(correct, incorrect);
    var twice := 2 * total;
    assert twice * pct <= 200 * correct + total < twice * (pct + 1);
    MulMono(twice, 101, pct);
    MulMono(twice, pct + 1, 101);
  }

  /** `i` is where `name` first occurs in `board`. */
  predicate FirstAt(board: seq<BoardEntry>, name: string, i: int) {
    && 0 <= i < |board|
    && board[i].username == name
    && forall j :: 0 <= j < i ==> board[j].username != name
  }

  /** `board.findIndex(p => p.username === name)`. */
  function FindIndex(board: seq<BoardEntry>, name: string): (r: int)
    ensures r == -1 <==> forall j :: 0 <= j < |board| ==> board[j].username != name
    ensures r != -1 ==> FirstAt(board, name, r)
  {
    if |board| == 0 then -1
    else if board[0].username == name then 0
    else
      var rest := FindIndex(board[1..], name);
      if rest == -1 then -1 else rest + 1
  }

  /** The badge for the row at `index` of the new leaderboard: shown only
      when the name was on the previous board at another position; `Up`
      when it used to sit lower (a larger index). */
  function RankBadge(previous: seq<BoardEntry>, name: string, index: nat): (b: Badge)
    ensures b.Up? ==> b.places > 0 && FirstAt(previous, name, index + b.places)
    ensures b.Down? ==> 0 < b.places <= index && FirstAt(previous, name, index - b.places)
    ensures b.NoBadge? <==>
      (forall j :: 0 <= j < |previous| ==> previous[j].username != name) || FirstAt(previous, name, index)
  {
    var prev := FindIndex(previous, name);
    if prev == -1 || prev == index then NoBadge
    else if prev > index then Up(prev - index)
    else Down(index - prev)
  }
}

=== FILE: leaderboard.dfy ===
/** `getLeaderboard`: the participants sorted by score, highest first, cut to
    the first ten. JavaScript's `Array.prototype.sort` is stable, so
    participants with equal scores keep the order `Object.values` lists them
    in, which is the order their sockets first joined. */
module Leaderboard {
  import opened Registry

  const BoardSize: nat := 10

  predicate Descending(s: seq<Participant>) {
    forall i, j :: 0 <= i < j < |s| ==> s[i].score >= s[j].score
  }

  /** The participants of `s` whose score is `k`, in their order in `s`. */
  function WithScore(s: seq<Participant>, k: int): (r: seq<Participant>) {
    if |s| == 0 then []
    else (if s[0].score == k then [s[0]] else []) + WithScore(s[1..], k)
  }

  /** Prepending a participant who outscores (or ties) everyone keeps the order. */
  lemma ConsDescending(x: Participant, rest: seq<Participant>)
    requires Descending(rest)
    requires forall j :: 0 <= j < |rest| ==> rest[j].score <= x.score
    ensures Descending([x] + rest)
  {
    var r := [x] + rest;
    forall i, j | 0 <= i < j < |r| ensures r[i].score >= r[j].score {
      assert r[j] == rest[j - 1];
      if i > 0 {
        assert r[i] == rest[i - 1];
      }
    }
  }

  /** A rearrangement of a sorted tail plus a lower-scored `p` stays under the head. */
  lemma BoundedByHead(s: seq<Participant>, p: Participant, rest: seq<Participant>)
    requires Descending(s)
    requires |s| > 0 && p.score < s[0].score
    requires multiset(rest) == multiset(s[1..]) + multiset{p}
    ensures forall j :: 0 <= j < |rest| ==> rest[j].score <= s[0].score
  {
    forall j | 0 <= j < |rest| ensures rest[j].score <= s[0].score {
      assert rest[j] in multiset(rest);
      if rest[j] != p {
        assert rest[j] in multiset(s[1..]);
        var m :| 0 <= m < |s[1..]| && s[1..][m] == rest[j];
        assert s[m + 1] == rest[j];
      }
    }
  }

  /** One step of a stable insertion sort: `p` goes in front of every
      participant whose score is not above its own. */
  function Insert(p: Participant, s: seq<Participant>): (r: seq<Participant>)
    requires Descending(s)
    ensures Descending(r)
    ensures multiset(r) == multiset(s) + multiset{p}
  {
    if |s| == 0 || p.score >= s[0].score then
      ConsDescending(p, s);
      [p] + s
    else
      var rest := Insert(p, s[1..]);
      assert s == [s[0]] + s[1..];
      BoundedByHead(s, p, rest);
      ConsDescending(s[0], rest);
      [s[0]] + rest
  }

  /** The participants of `[x]` with score `k`. */
  function Own(x: Participant, k: int): (r: seq<Participant>) {
    if x.score == k then [x] else []
  }

  lemma WithScoreCons(x: Participant, s: seq<Participant>, k: int)
    ensures WithScore([x] + s, k) == Own(x, k) + WithScore(s, k)
  {
    assert ([x] + s)[1..] == s;
  }

  /** Moving a lower-scored `p` behind `x` keeps every score class in order,
      because `x` and `p` never fall in the same class. */
  lemma SwapPastHigher(x: Participant, p: Participant, rest: seq<Participant>, tail: seq<Participant>, k: int)
    requires p.score < x.score
    requires WithScore(rest, k) == WithScore([p] + tail, k)
    ensures WithScore([x] + rest, k) == WithScore([p] + ([x] + tail), k)
  {
    calc {
      WithScore([x] + rest, k);
      { WithScoreCons(x, rest, k); }
      Own(x, k) + WithScore(rest, k);
      { WithScoreCons(p, tail, k); }
      Own(x, k) + (Own(p, k) + WithScore(tail, k));
      { assert Own(x, k) == [] || Own(p, k) == []; }
      Own(p, k) + (Own(x, k) + WithScore(tail, k));
      { WithScoreCons(x, tail, k); }
      Own(p, k) + WithScore([x] + tail, k);
      { WithScoreCons(p, [x] + tail, k); }
      WithScore([p] + ([x] + tail), k);
    }
  }

  /** Inserting keeps each score class in the order of `[p] + s`: `p` lands
      ahead of every equal-scored participant already present. */
  lemma {:induction false} InsertStable(p: Participant, s: seq<Participant>, k: int)
    requires Descending(s)
    ensures WithScore(Insert(p, s), k) == WithScore([p] + s, k)
  {
    if |s| > 0 && p.score < s[0].score {
      var tail := s[1..];
      InsertStable(p, tail, k);
      SwapPastHigher(s[0], p, Insert(p, tail), tail, k);
      assert s == [s[0]] + tail;
    }
  }

  /** The participants ordered by score, highest first, ties in input order. */
  function Ranked(ps: seq<Participant>): (r: seq<Participant>)
    ensures Descending(r)
    ensures multiset(r) == multiset(ps)
    ensures forall k :: WithScore(r, k) == WithScore(ps, k)
  {
    if |ps| == 0 then []
    else
      var rest := Ranked(ps[1..]);
      assert ([ps[0]] + rest)[1..] == rest;
      assert ps == [ps[0]] + ps[1..];
      forall k ensures WithScore(Insert(ps[0], rest), k) == WithScore(ps, k) {
        InsertStable(ps[0], rest, k);
      }
      Insert(ps[0], rest)
  }

  /** Cutting a sequence keeps a prefix of each score class. */
  lemma {:induction false} WithScoreOfPrefix(s: seq<Participant>, n: nat, k: int)
    requires n <= |s|
    ensures WithScore(s[..n], k) <= WithScore(s, k)
  {
    if n > 0 {
      WithScoreOfPrefix(s[1..], n - 1, k);
      assert s[..n][1..] == s[1..][..n - 1];
    }
  }

  /** Whatever a rearrangement of `Object.values` holds is a record in the table. */
  lemma DrawnFromTable(t: Table, s: seq<Participant>)
    requires Valid(t)
    requires multiset(s) == multiset(Values(t))
    ensures forall i :: 0 <= i < |s| ==> s[i] in t.entries.Values
  {
    forall i | 0 <= i < |s| ensures s[i] in t.entries.Values {
      assert s[i] in multiset(Values(t));
      var j :| 0 <= j < |Values(t)| && Values(t)[j] == s[i];
      assert t.order[j] in t.entries;
    }
  }

  /** `.slice(0, 10)` of a ranking. */
  function Top(s: seq<Participant>): (b: seq<Participant>)
    requires Descending(s)
    ensures Descending(b)
    ensures |b| == if |s| < BoardSize then |s| else BoardSize
    ensures b == s[..|b|]
    ensures forall k :: WithScore(b, k) <= WithScore(s, k)
  {
    var n := if |s| < BoardSize then |s| else BoardSize;
    forall k ensures WithScore(s[..n], k) <= WithScore(s, k) {
      WithScoreOfPrefix(s, n, k);
    }
    s[..n]
  }

  /** `getLeaderboard()` over the participant table. */
  function Board(t: Table): (b: seq<Participant>)
    requires Valid(t)
    ensures |b| == if Count(t) < BoardSize then Count(t) else BoardSize
    ensures Descending(b)
    ensures forall i :: 0 <= i < |b| ==> b[i] in t.entries.Values
    ensures forall k :: WithScore(b, k) <= WithScore(Values(t), k)
  {
    var all := Ranked(Values(t));
    assert |all| == |multiset(all)| == |multiset(Values(t))| == |Values(t)|;
    DrawnFromTable(t, all);
    Top(all)
  }

  /** Nobody left off the board outscores the last participant on it: the
      board really is the top ten. Records are counted with multiplicity,
      since two sockets may hold identical records. */
  lemma BoardIsTop(t: Table, p: Participant)
    requires Valid(t)
    ensures multiset(Board(t))[p] < multiset(Values(t))[p] ==>
      |Board(t)| == BoardSize && p.score <= Board(t)[BoardSize - 1].score
  {
    var all := Ranked(Values(t));
    var b := Board(t);
    var n := |b|;
    if multiset(b)[p] < multiset(Values(t))[p] {
      assert b == all[..n];
      assert all == all[..n] + all[n..];
      assert multiset(all)[p] == multiset(b)[p] + multiset(all[n..])[p];
      assert p in multiset(all[n..]);
      var j :| 0 <= j < |all[n..]| && all[n..][j] == p;
      assert all[n + j] == p;
    }
  }
}

=== FILE: optional.dfy ===
/** The one helper datatype the model shares: a value that may be absent
    (JavaScript's `null`/`undefined` where the source tests for it). */
module Optional {

  datatype Option<+T> = None | Some(value: T)
}

=== FILE: registry.dfy ===
/** The server's participant table: `quizState.participants`, a JavaScript
    object keyed by socket id. Besides the key-to-record map the model keeps
    the keys in insertion order, because `Object.values` enumerates string
    keys in that order and the leaderboard's tie order depends on it.
    Assigning to an existing key keeps its position; `delete` removes it. */
module Registry {

  type SocketId = string

  /** One entry of `answers`: the id of the question answered, the option
      index the client sent, and whether it matched the correct option. */
  datatype AnswerRecord = AnswerRecord(questionId: int, answer: int, correct: bool)

  datatype Participant = Participant(username: string, score: int, answers: seq<AnswerRecord>)

  datatype Table = Table(entries: map<SocketId, Participant>, order: seq<SocketId>)

  const Empty: Table := Table(map[], [])

  predicate Distinct(ids: seq<SocketId>) {
    forall i, j :: 0 <= i < j < |ids| ==> ids[i] != ids[j]
  }

  /** The order lists every key exactly once. */
  predicate Valid(t: Table) {
    && Distinct(t.order)
    && (forall id :: id in t.entries ==> id in t.order)
    && (forall i :: 0 <= i < |t.order| ==> t.order[i] in t.entries)
    && |t.order| == |t.entries|
  }

  /** `Object.keys(participants).length` */
  function Count(t: Table): (n: nat) {
    |t.entries|
  }

  /** `participants[id] = p`: inserts a new key at the end of the order or
      overwrites an existing one in place. */
  function Put(t: Table, id: SocketId, p: Participant): (r: Table)
    requires Valid(t)
    ensures Valid(r)
    ensures id in r.entries && r.entries[id] == p
    ensures forall k :: k != id ==> (k in r.entries <==> k in t.entries)
    ensures forall k :: k != id && k in t.entries ==> r.entries[k] == t.entries[k]
    ensures id in t.entries ==> r.order == t.order
    ensures id !in t.entries ==> r.order == t.order + [id]
    ensures Count(r) == Count(t) + (if id in t.entries then 0 else 1)
  {
    var order := if id in t.entries then t.order else t.order + [id];
    var r := Table(t.entries[id := p], order);
    assert id !in t.entries ==> r.entries.Keys == t.entries.Keys + {id};
    r
  }

  /** `ids` with `x` filtered out, keeping the order of the rest. */
  function Without(ids: seq<SocketId>, x: SocketId): (r: seq<SocketId>)
    ensures forall k :: k in r <==> k in ids && k != x
    ensures |r| <= |ids|
  {
    if |ids| == 0 then []
    else if ids[0] == x then Without(ids[1..], x)
    else [ids[0]] + Without(ids[1..], x)
  }

  lemma {:induction false} WithoutDistinct(ids: seq<SocketId>, x: SocketId)
    requires Distinct(ids)
    ensures Distinct(Without(ids, x))
    ensures |Without(ids, x)| == |ids| - (if x in ids then 1 else 0)
  {
    if |ids| > 0 {
      var tail := ids[1..];
      assert Distinct(tail) by {
        forall i, j | 0 <= i < j < |tail| ensures tail[i] != tail[j] {
          assert tail[i] == ids[i + 1] && tail[j] == ids[j + 1];
        }
      }
      WithoutDistinct(tail, x);
      assert ids[0] !in tail by {
        forall j | 0 <= j < |tail| ensures tail[j] != ids[0] {
          assert tail[j] == ids[j + 1];
        }
      }
      if ids[0] == x {
        assert x !in tail;
      } else {
        assert x in ids <==> x in tail;
        var r := [ids[0]] + Without(tail, x);
        forall i, j | 0 <= i < j < |r| ensures r[i] != r[j] {
          if i == 0 {
            assert r[j] in Without(tail, x);
          } else {
            assert r[i] == Without(tail, x)[i - 1] && r[j] == Without(tail, x)[j - 1];
          }
        }
      }
    }
  }

  /** Filtering distributes over concatenation, so the survivors keep their
      relative order. */
  lemma {:induction false} WithoutAppend(a: seq<SocketId>, b: seq<SocketId>, x: SocketId)
    ensures Without(a + b, x) == Without(a, x) + Without(b, x)
  {
    if |a| > 0 {
      assert (a + b)[0] == a[0];
      assert (a + b)[1..] == a[1..] + b;
      WithoutAppend(a[1..], b, x);
    } else {
      assert a + b == b;
    }
  }

  lemma {:induction false} WithoutAbsent(ids: seq<SocketId>, x: SocketId)
    requires x !in ids
    ensures Without(ids, x) == ids
  {
    if |ids| > 0 {
      assert x !in ids[1..];
      WithoutAbsent(ids[1..], x);
    }
  }

  /** Removing a key that sits at position `i` closes the gap and moves
      nothing else. */
  lemma WithoutAt(ids: seq<SocketId>, x: SocketId, i: int)
    requires Distinct(ids)
    requires 0 <= i < |ids| && ids[i] == x
    ensures Without(ids, x) == ids[..i] + ids[i + 1..]
  {
    forall j | 0 <= j < i ensures ids[..i][j] != x {
      assert ids[j] != ids[i];
    }
    var after := ids[i + 1..];
    assert ids == ids[..i] + ([x] + after);
    forall j | 0 <= j < |after| ensures after[j] != x {
      assert after[j] == ids[i + 1 + j];
    }
    WithoutAbsent(ids[..i], x);
    WithoutAbsent(after, x);
    WithoutAppend(ids[..i], [x] + after, x);
    WithoutAppend([x], after, x);
    assert Without([x], x) == [];
  }

  lemma MapRemoveSize(m: map<SocketId, Participant>, id: SocketId)
    ensures |m - {id}| == |m| - (if id in m then 1 else 0)
  {
    if id in m {
      assert m.Keys == (m - {id}).Keys + {id};
    } else {
      assert (m - {id}).Keys == m.Keys;
    }
  }

  lemma RemoveValid(t: Table, id: SocketId)
    requires Valid(t)
    ensures Valid(Table(t.entries - {id}, Without(t.order, id)))
  {
    var entries := t.entries - {id};
    var order := Without(t.order, id);
    WithoutDistinct(t.order, id);
    MapRemoveSize(t.entries, id);
    forall i | 0 <= i < |order| ensures order[i] in entries {
      assert order[i] in order;
      var j :| 0 <= j < |t.order| && t.order[j] == order[i];
    }
    forall k | k in entries ensures k in order {
      assert k in t.order;
    }
  }

  /** The surviving keys keep their positions relative to each other. */
  lemma RemoveOrder(t: Table, id: SocketId)
    requires Valid(t)
    ensures id !in t.entries ==> Without(t.order, id) == t.order
    ensures forall i :: 0 <= i < |t.order| && t.order[i] == id ==>
      Without(t.order, id) == t.order[..i] + t.order[i + 1..]
  {
    if id !in t.entries {
      WithoutAbsent(t.order, id);
    }
    forall i | 0 <= i < |t.order| && t.order[i] == id
      ensures Without(t.order, id) == t.order[..i] + t.order[i + 1..]
    {
      WithoutAt(t.order, id, i);
    }
  }

  /** `delete participants[id]`: removes that key and nothing else. */
  function Remove(t: Table, id: SocketId): (r: Table)
    requires Valid(t)
    ensures Valid(r)
    ensures id !in r.entries
    ensures forall k :: k != id ==> (k in r.entries <==> k in t.entries)
    ensures forall k :: k != id && k in t.entries ==> r.entries[k] == t.entries[k]
    ensures Count(r) == Count(t) - (if id in t.entries then 1 else 0)
    ensures id !in t.entries ==> r.order == t.order
    ensures forall i :: 0 <= i < |t.order| && t.order[i] == id ==> r.order == t.order[..i] + t.order[i + 1..]
  {
    RemoveValid(t, id);
    MapRemoveSize(t.entries, id);
    RemoveOrder(t, id);
    Table(t.entries - {id}, Without(t.order, id))
  }

  /** `Object.values(participants)`: the records in key insertion order. */
  function Values(t: Table): (vs: seq<Participant>)
    requires Valid(t)
    ensures |vs| == Count(t)
    ensures forall i :: 0 <= i < |vs| ==> vs[i] == t.entries[t.order[i]]
  {
    seq(|t.order|, i requires 0 <= i < |t.order| => t.entries[t.order[i]])
  }

  /** Every record in the table shows up in `Object.values`. */
  lemma ValueListed(t: Table, id: SocketId)
    requires Valid(t)
    requires id in t.entries
    ensures t.entries[id] in Values(t)
  {
    var i :| 0 <= i < |t.order| && t.order[i] == id;
    assert Values(t)[i] == t.entries[id];
  }
}

=== FILE: scoring.dfy ===
/** The server's points formula for a submitted answer. */
module Scoring {

  /** Points for an instant correct answer. */
  const MaxPoints: int := 50
  /** The least a correct answer is ever worth. */
  const MinPoints: int := 10
  /** One point of the bonus is lost per this many milliseconds. */
  const DecayMs: int := 1000

  /** `Math.floor(elapsedMs / 1000)`: the whole seconds elapsed, rounded
      toward negative infinity also when the clock went backwards. */
  function WholeSeconds(elapsedMs: int): (secs: int)
    ensures DecayMs * secs <= elapsedMs < DecayMs * (secs + 1)
  {
    elapsedMs / DecayMs
  }

  /** Points awarded to a correct answer given `elapsedMs` since the question started. */
  function Points(elapsedMs: int): (p: int)
    ensures p >= MinPoints
    ensures p >= MaxPoints - WholeSeconds(elapsedMs)
    ensures p == MinPoints || p == MaxPoints - WholeSeconds(elapsedMs)
  {
    var decayed := MaxPoints - WholeSeconds(elapsedMs);
    if decayed > MinPoints then decayed else MinPoints
  }

  /** Points added to a participant's score: nothing for a wrong answer. */
  function Award(isCorrect: bool, elapsedMs: int): (p: int)
    ensures p >= 0
    ensures isCorrect <==> p > 0
    ensures isCorrect ==> p >= MinPoints
    ensures isCorrect && elapsedMs >= 0 ==> p <= MaxPoints
  {
    if isCorrect then Points(elapsedMs) else 0
  }

  /** With a clock that does not run backwards, a correct answer is worth
      between 10 and 50 points. */
  lemma PointsBounded(elapsedMs: int)
    requires elapsedMs >= 0
    ensures MinPoints <= Points(elapsedMs) <= MaxPoints
  {
    assert WholeSeconds(elapsedMs) >= 0;
  }

  /** Answering later never earns more. */
  lemma PointsMonotone(earlier: int, later: int)
    requires earlier <= later
    ensures Points(later) <= Points(earlier)
  {
    var a, b := WholeSeconds(earlier), WholeSeconds(later);
    assert a <= b;
  }

  /** The full bonus (or more, if the clock went backwards) goes exactly to
      answers within the first second. */
  lemma FullBonusWithinFirstSecond(elapsedMs: int)
    ensures Points(elapsedMs) >= MaxPoints <==> elapsedMs < DecayMs
  {
    var secs := WholeSeconds(elapsedMs);
    assert secs <= 0 <==> elapsedMs < DecayMs;
  }

  /** The 10-point floor is reached exactly after 40 whole seconds. */
  lemma FloorReachedAfterFortySeconds(elapsedMs: int)
    ensures Points(elapsedMs) == MinPoints <==> elapsedMs >= (MaxPoints - MinPoints) * DecayMs
  {
    var secs := WholeSeconds(elapsedMs);
    assert secs >= 40 <==> elapsedMs >= 40000;
  }
}

=== FILE: server.dfy ===
/** The socket handlers of the server wired together: one inbound event at a
    time, in arrival order, each stamped with the clock reading it sees. The
    lemmas here state what holds of every state the server can reach. */
module Server {
  import opened Bank
  import opened Scoring
  import opened Registry
  import opened Session

  /** The events a connection can deliver to the server. */
  datatype Event =
    | OnJoin(sock: SocketId, username: string)
    | OnStart
    | OnSubmit(sock: SocketId, questionIndex: int, answerIndex: int)
    | OnNext
    | OnDisconnect(sock: SocketId)

  datatype Timed = Timed(now: int, event: Event)

  function Handle(s: QuizState, e: Event, now: int): (r: Outcome)
    requires Valid(s.participants)
    ensures r.Handled? ==> Valid(r.step.state.participants)
    ensures r.Crashed? <==>
      e.OnSubmit? && s.isActive && (!ValidIndex(e.questionIndex) || e.sock !in s.participants.entries)
  {
    match e
    case OnJoin(sock, username) => Handled(Join(s, sock, username))
    case OnStart => Handled(Start(s, now))
    case OnSubmit(sock, qi, ai) => SubmitAnswer(s, sock, qi, ai, now)
    case OnNext => Handled(NextQuestion(s, now))
    case OnDisconnect(sock) => Handled(Disconnect(s, sock))
  }

  /** Feeds the events in order; stops at the first handler that throws.
      The emissions of all handled events are concatenated. */
  function Run(s: QuizState, events: seq<Timed>): (r: Outcome)
    requires Valid(s.participants)
    ensures r.Handled? ==> Valid(r.step.state.participants)
    decreases |events|
  {
    if |events| == 0 then Handled(Step(s, []))
    else
      match Handle(s, events[0].event, events[0].now)
      case Crashed(c) => Crashed(c)
      case Handled(first) =>
        match Run(first.state, events[1..])
        case Crashed(c) => Crashed(c)
        case Handled(rest) => Handled(Step(rest.state, first.out + rest.out))
  }

  lemma {:induction false} CorrectCountAppend(answers: seq<AnswerRecord>, a: AnswerRecord)
    ensures CorrectCount(answers + [a]) == CorrectCount(answers) + (if a.correct then 1 else 0)
  {
    assert (answers + [a])[..|answers|] == answers;
  }

  /** The record an accepted answer leaves behind is still consistent. */
  lemma AnsweredConsistent(p: Participant, qi: int, answerIndex: int, elapsedMs: int)
    requires Consistent(p)
    requires ValidIndex(qi)
    ensures Consistent(Answered(p, Questions[qi], answerIndex, elapsedMs))
  {
    var q := Questions[qi];
    var a := AnswerRecord(q.id, answerIndex, answerIndex == q.correct);
    var p' := Answered(p, q, answerIndex, elapsedMs);
    CorrectCountAppend(p.answers, a);
    BankWellFormed();
    FindByIdOfMember(Questions, qi);
    assert Graded(a);
    forall i | 0 <= i < |p'.answers| ensures Graded(p'.answers[i]) {
      if i < |p.answers| {
        assert p'.answers[i] == p.answers[i];
      }
    }
  }

  lemma JoinPreservesInv(s: QuizState, sock: SocketId, username: string)
    requires Inv(s)
    ensures Inv(Join(s, sock, username).state)
  {
    assert CorrectCount([]) == 0;
  }

  lemma StartPreservesInv(s: QuizState, now: int)
    requires Inv(s)
    ensures Inv(Start(s, now).state)
  {
  }

  lemma SubmitPreservesInv(s: QuizState, sock: SocketId, qi: int, ai: int, now: int)
    requires Inv(s)
    ensures SubmitAnswer(s, sock, qi, ai, now).Handled? ==> Inv(SubmitAnswer(s, sock, qi, ai, now).step.state)
  {
    if s.isActive && ValidIndex(qi) && sock in s.participants.entries {
      AnsweredConsistent(s.participants.entries[sock], qi, ai, Elapsed(s.startTime, now));
    }
  }

  lemma NextPreservesInv(s: QuizState, now: int)
    requires Inv(s)
    ensures Inv(NextQuestion(s, now).state)
  {
  }

  lemma DisconnectPreservesInv(s: QuizState, sock: SocketId)
    requires Inv(s)
    ensures Inv(Disconnect(s, sock).state)
  {
  }

  lemma HandlePreservesInv(s: QuizState, e: Event, now: int)
    requires Inv(s)
    ensures Handle(s, e, now).Handled? ==> Inv(Handle(s, e, now).step.state)
  {
    match e
    case OnJoin(sock, username) => JoinPreservesInv(s, sock, username);
    case OnStart => StartPreservesInv(s, now);
    case OnSubmit(sock, qi, ai) => SubmitPreservesInv(s, sock, qi, ai, now);
    case OnNext => NextPreservesInv(s, now);
    case OnDisconnect(sock) => DisconnectPreservesInv(s, sock);
  }

  /** Every state reachable without a crash satisfies the invariant: while
      the quiz is active the current question exists and its start time is
      set, and every score is backed by its correct answers. */
  lemma {:induction false} RunPreservesInv(s: QuizState, events: seq<Timed>)
    requires Inv(s)
    ensures Run(s, events).Handled? ==> Inv(Run(s, events).step.state)
    decreases |events|
  {
    if |events| > 0 {
      var first := Handle(s, events[0].event, events[0].now);
      HandlePreservesInv(s, events[0].event, events[0].now);
      if first.Handled? {
        RunPreservesInv(first.step.state, events[1..]);
      }
    }
  }

  /** No score ever goes down on an answer, and only the sender's can go up. */
  lemma SubmitNeverLowersScores(s: QuizState, sock: SocketId, qi: int, ai: int, now: int)
    requires Valid(s.participants)
    ensures var r := SubmitAnswer(s, sock, qi, ai, now);
      r.Handled? ==>
      var after := r.step.state.participants.entries;
      forall k :: k in s.participants.entries ==>
        k in after && after[k].score >= s.participants.entries[k].score
  {
  }

  /** `next-question` carries no fence: two requests for the same question
      (one per client timer, say) advance the quiz twice. */
  lemma NextQuestionTwiceAdvancesTwice(s: QuizState, now1: int, now2: int)
    requires Valid(s.participants)
    ensures NextQuestion(NextQuestion(s, now1).state, now2).state.currentQuestion == s.currentQuestion + 2
  {
  }

  /** A correct answer within the first second of its question adds the
      full 50 points to the sender's score. */
  lemma QuickCorrectAnswerEarnsFullBonus(s: QuizState, sock: SocketId, qi: int, now: int)
    requires Valid(s.participants)
    requires s.isActive && ValidIndex(qi) && sock in s.participants.entries
    requires s.startTime.Some? && s.startTime.value <= now < s.startTime.value + DecayMs
    ensures var r := SubmitAnswer(s, sock, qi, Questions[qi].correct, now);
      && r.Handled?
      && r.step.state.participants.entries[sock].score == s.participants.entries[sock].score + MaxPoints
  {
    var elapsed := Elapsed(s.startTime, now);
    FullBonusWithinFirstSecond(elapsed);
    PointsBounded(elapsed);
  }
}

=== FILE: session.dfy ===
/** The server's quiz session: `quizState` and the socket handlers that
    change it, each a pure transition that takes the clock reading `now`
    (what `Date.now()` returns) as a parameter and returns the next state
    together with the messages the handler emits. */
module Session {
  import opened Optional
  import opened Bank
  import opened Scoring
  import opened Registry
  import opened Leaderboard

  datatype QuizState = QuizState(
    isActive: bool,
    currentQuestion: nat,
    startTime: Option<int>,
    participants: Table)

  /** The state the server process starts in. */
  const Initial: QuizState := QuizState(false, 0, None, Empty)

  /** `io.emit` reaches every connection; `socket.emit` only the sender. */
  datatype Audience = Everyone | Sender

  datatype Message =
    | QuizStateMsg(state: QuizState)
    | ParticipantCount(count: nat)
    | ShowAdminPanel
    | QuizStarted(first: Question)
    | LeaderboardUpdate(board: seq<Participant>)
    | NextQuestionMsg(next: Question)
    | QuizFinished(finalBoard: seq<Participant>)

  datatype Emission = Emission(to: Audience, msg: Message)

  /** The state after a handler ran, and what it emitted, in order. */
  datatype Step = Step(state: QuizState, out: seq<Emission>)

  /** A handler that throws a `TypeError`, which takes the process down. */
  datatype Crash =
    | NoSuchQuestion(questionIndex: int)
    | NoSuchParticipant(socket: SocketId)

  datatype Outcome = Handled(step: Step) | Crashed(crash: Crash)

  /** The invariant every handler preserves. */
  predicate Inv(s: QuizState) {
    && Valid(s.participants)
    && (s.isActive ==> ValidIndex(s.currentQuestion) && s.startTime.Some?)
    && (forall id :: id in s.participants.entries ==> Consistent(s.participants.entries[id]))
  }

  /** How many recorded answers were correct. */
  function CorrectCount(answers: seq<AnswerRecord>): (n: nat)
    ensures n <= |answers|
  {
    if |answers| == 0 then 0
    else CorrectCount(answers[..|answers| - 1]) + (if answers[|answers| - 1].correct then 1 else 0)
  }

  /** An answer record was graded against the bank question it names. */
  predicate Graded(a: AnswerRecord) {
    match FindById(Questions, a.questionId)
    case None => false
    case Some(q) => a.correct == (a.answer == q.correct)
  }

  /** A participant's score is made of at least 10 points per correct answer
      and nothing else, and every answer on record is correctly graded. */
  predicate Consistent(p: Participant) {
    && p.score >= MinPoints * CorrectCount(p.answers)
    && (CorrectCount(p.answers) == 0 ==> p.score == 0)
    && (forall i :: 0 <= i < |p.answers| ==> Graded(p.answers[i]))
  }

  lemma InitialInv()
    ensures Inv(Initial)
  {
  }

  /** `join-quiz`: (re)registers the sender with a fresh record, sends it the
      state, broadcasts the participant count and, when the sender is now
      the only participant, shows it the admin panel. */
  function Join(s: QuizState, sock: SocketId, username: string): (r: Step)
    requires Valid(s.participants)
    ensures Valid(r.state.participants)
    ensures sock in r.state.participants.entries
    ensures r.state.participants.entries[sock] == Participant(username, 0, [])
    ensures forall k :: k != sock ==> (k in r.state.participants.entries <==> k in s.participants.entries)
    ensures forall k :: k != sock && k in s.participants.entries ==>
      r.state.participants.entries[k] == s.participants.entries[k]
    ensures sock in s.participants.entries ==> r.state.participants.order == s.participants.order
    ensures sock !in s.participants.entries ==> r.state.participants.order == s.participants.order + [sock]
    ensures r.state == s.(participants := r.state.participants)
    ensures |r.out| == if |r.state.participants.entries| == 1 then 3 else 2
    ensures r.out[0] == Emission(Sender, QuizStateMsg(r.state))
    ensures r.out[1] == Emission(Everyone, ParticipantCount(|r.state.participants.entries|))
    ensures Emission(Sender, ShowAdminPanel) in r.out <==> |r.state.participants.entries| == 1
  {
    var t := Put(s.participants, sock, Participant(username, 0, []));
    var s' := s.(participants := t);
    var out := [Emission(Sender, QuizStateMsg(s')), Emission(Everyone, ParticipantCount(Count(t)))];
    Step(s', if Count(t) == 1 then out + [Emission(Sender, ShowAdminPanel)] else out)
  }

  /** `start-quiz`: unconditionally (re)starts at the first question. */
  function Start(s: QuizState, now: int): (r: Step)
    ensures r.state.isActive && r.state.currentQuestion == 0 && r.state.startTime == Some(now)
    ensures r.state.participants == s.participants
    ensures r.out == [Emission(Everyone, QuizStarted(Questions[0]))]
  {
    Step(QuizState(true, 0, Some(now), s.participants), [Emission(Everyone, QuizStarted(Questions[0]))])
  }

  /** `Date.now() - quizState.startTime`, where JavaScript reads `null` as 0. */
  function Elapsed(startTime: Option<int>, now: int): (e: int)
    ensures startTime.None? ==> e == now
    ensures startTime.Some? ==> startTime.value + e == now
  {
    match startTime
    case None => now
    case Some(t) => now - t
  }

  /** The record `submit-answer` leaves for the sender. */
  function Answered(p: Participant, q: Question, answerIndex: int, elapsedMs: int): (r: Participant)
    ensures r.username == p.username
    ensures r.answers == p.answers + [AnswerRecord(q.id, answerIndex, answerIndex == q.correct)]
    ensures answerIndex == q.correct ==> r.score == p.score + Points(elapsedMs)
    ensures answerIndex != q.correct ==> r.score == p.score
  {
    var isCorrect := answerIndex == q.correct;
    Participant(p.username, p.score + Award(isCorrect, elapsedMs),
                p.answers + [AnswerRecord(q.id, answerIndex, isCorrect)])
  }

  /** `submit-answer`: ignored while inactive; otherwise grades the answer
      against the question the CLIENT names, adds the time-decayed points
      for a correct answer, records the answer and broadcasts the
      leaderboard. A question index outside the bank, or a sender that never
      joined, makes the handler throw. */
  function SubmitAnswer(s: QuizState, sock: SocketId, questionIndex: int, answerIndex: int, now: int): (r: Outcome)
    requires Valid(s.participants)
    ensures !s.isActive ==> r == Handled(Step(s, []))
    ensures s.isActive && !ValidIndex(questionIndex) ==> r == Crashed(NoSuchQuestion(questionIndex))
    ensures s.isActive && ValidIndex(questionIndex) && sock !in s.participants.entries ==>
      r == Crashed(NoSuchParticipant(sock))
    ensures s.isActive && ValidIndex(questionIndex) && sock in s.participants.entries ==> r.Handled?
    ensures r.Handled? ==> Valid(r.step.state.participants)
    ensures r.Handled? && s.isActive ==>
      var q := Questions[questionIndex];
      var before := s.participants.entries;
      var after := r.step.state.participants.entries;
      && r.step.state == s.(participants := r.step.state.participants)
      && after.Keys == before.Keys
      && r.step.state.participants.order == s.participants.order
      && after[sock].username == before[sock].username
      && after[sock].answers == before[sock].answers + [AnswerRecord(q.id, answerIndex, answerIndex == q.correct)]
      && after[sock].score == before[sock].score + Award(answerIndex == q.correct, Elapsed(s.startTime, now))
      && (forall k :: k in before && k != sock ==> after[k] == before[k])
      && r.step.out == [Emission(Everyone, LeaderboardUpdate(Board(r.step.state.participants)))]
  {
    if !s.isActive then Handled(Step(s, []))
    else if !ValidIndex(questionIndex) then Crashed(NoSuchQuestion(questionIndex))
    else if sock !in s.participants.entries then Crashed(NoSuchParticipant(sock))
    else
      var p := Answered(s.participants.entries[sock], Questions[questionIndex], answerIndex,
                        Elapsed(s.startTime, now));
      var t := Put(s.participants, sock, p);
      var s' := s.(participants := t);
      Handled(Step(s', [Emission(Everyone, LeaderboardUpdate(Board(t)))]))
  }

  /** `next-question`: unconditionally moves on; past the last question the
      quiz stops and the final leaderboard goes out. */
  function NextQuestion(s: QuizState, now: int): (r: Step)
    requires Valid(s.participants)
    ensures r.state.currentQuestion == s.currentQuestion + 1
    ensures r.state.participants == s.participants
    ensures ValidIndex(r.state.currentQuestion) ==>
      && r.state.isActive == s.isActive
      && r.state.startTime == Some(now)
      && r.out == [Emission(Everyone, NextQuestionMsg(Questions[r.state.currentQuestion]))]
    ensures !ValidIndex(r.state.currentQuestion) ==>
      && !r.state.isActive
      && r.state.startTime == s.startTime
      && r.out == [Emission(Everyone, QuizFinished(Board(s.participants)))]
  {
    var next := s.currentQuestion + 1;
    if next < |Questions| then
      Step(s.(currentQuestion := next, startTime := Some(now)),
           [Emission(Everyone, NextQuestionMsg(Questions[next]))])
    else
      Step(s.(currentQuestion := next, isActive := false),
           [Emission(Everyone, QuizFinished(Board(s.participants)))])
  }

  /** `disconnect`: forgets the sender, in any phase, and broadcasts the count. */
  function Disconnect(s: QuizState, sock: SocketId): (r: Step)
    requires Valid(s.participants)
    ensures Valid(r.state.participants)
    ensures sock !in r.state.participants.entries
    ensures forall k :: k != sock ==> (k in r.state.participants.entries <==> k in s.participants.entries)
    ensures forall k :: k != sock && k in s.participants.entries ==>
      r.state.participants.entries[k] == s.participants.entries[k]
    ensures sock !in s.participants.entries ==> r.state.participants.order == s.participants.order
    ensures forall i :: 0 <= i < |s.participants.order| && s.participants.order[i] == sock ==>
      r.state.participants.order == s.participants.order[..i] + s.participants.order[i + 1..]
    ensures r.state == s.(participants := r.state.participants)
    ensures r.out == [Emission(Everyone, ParticipantCount(|r.state.participants.entries|))]
  {
    var t := Remove(s.participants, sock);
    Step(s.(participants := t), [Emission(Everyone, ParticipantCount(Count(t)))])
  }
}
